=== FILE: README.md ===
# Patient mapping layer — a Dafny model

The system is a thin FastAPI proxy between a browser form and a remote
FHIR R4 server. It has no database. What it does itself is reshape data. It
turns the flat create fields into a FHIR Patient resource (section 8.1 of
FHIR R4, Resource Patient). It reads a flat `PatientSummary` back out of a
resource, or out of a Bundle entry that wraps one. On update it merges the
supplied fields into the resource fetched from the server. It guards birth
dates against the future. It builds the search parameters for listing and
searching (section 3.1.1 of FHIR R4, Search: `_count`, `_sort`, `_id`).

This project models that reshaping as pure functions over immutable
datatypes and proves what the code promises about them:

- `wrappers.dfy` (`Wrappers`): `Option` and `Result`.
- `text.dfy` (`Text`): the Python string operations the code relies on. These are `str.strip()`, `str.lower()`, `str(int)`, `int(str)` and `str.split("-")`.
- `dates.dfy` (`Dates`): `validate_birthdate_not_future`, with "today" as a parameter.
- `fhir.dfy` (`Fhir`): the Patient resource, the Bundle entry and the summary. It also has the create and update payloads and the request-model constraints, stated as predicates.
- `mapper.dfy` (`Mapper`): `build_patient_resource`, `extract_patient_summary` and the merge step of `update_patient`.
- `query.dfy` (`Query`): the parameter maps of `list_patients` and `search_patients`, and the loop that collects summaries from a Bundle.
- `handlers.dfy` (`Handlers`): the create and update endpoints, with the server calls taken out.

The JSON is modelled with types. A key that is absent and a key that holds
`null` are both `None`. Top-level keys and first-name keys that the mapping
never touches are kept in `other` maps, so "nothing else changes" can be
stated about them; `Fhir.KeysApart` says that no modelled key is also
found in one of those maps. Python's `a or b` on strings is `Mapper.Or`. Its
truthiness test is `Fhir.Truthy`: present and non-empty.

## Model

| member | source | states |
|---|---|---|
| `Text.Strip` | main.py:181-182 | the result has no whitespace (Python's whitespace set) at either end, and an already trimmed string comes back unchanged |
| `Text.StripSlice` | main.py:181-182 | what `strip()` keeps is a slice of the input; only whitespace was cut off before and after it |
| `Text.Lower` | main.py:119 | `lower()` turns each capital A–Z into its small letter and leaves every other character where it was; the result has no capitals and the input's length |
| `Text.LowerIdempotent` | main.py:265 | lowering an already lowered gender changes nothing |
| `Text.UnitSeparatorRefused` | main.py:131 | `int()` skips less whitespace than `strip()`: a digit string behind an ASCII unit separator is stripped to the digits, yet `int()` refuses it |
| `Text.IntToString` | main.py:123 | `str(n)`: for `n >= 0` only digits, and a leading zero only in the text `"0"` of 0; for `n < 0` a minus sign followed by digits that do not start with zero |
| `Text.ParseInt` | main.py:131 | `int()` succeeds only on an optional sign and digits between the whitespace it skips, ending in a digit; a negative result needs a leading minus (the converse is `Text.SignedDigitsParse`) |
| `Text.SignedDigitsParse` | main.py:131 | for any run of digits `d` between runs of the whitespace `int()` skips, `int()` reads `d`, `+d` and `-d` as the value of `d`, that value, and its negation |
| `Text.StripAround` | main.py:131 | `int()` gives the same result on a text as on that text surrounded by any runs of the whitespace it skips, provided the text neither starts nor ends with such whitespace |
| `Text.StripOver` | main.py:131 | removing a class of whitespace from both ends cuts exactly the runs of it around a text that neither starts nor ends with one |
| `Text.UnderscoreIgnored` | main.py:131 | `int()` reads two digit runs joined by one underscore as it reads the two runs written together (`2_999` as `2999`) |
| `Text.Split` | main.py:131 | `split("-")` gives at least one piece and no piece contains `-` |
| `Text.IntStringRoundTrip` | main.py:123 | the phone text `str(phone)` reads back through `int()` as the same integer, negative numbers included |
| `Text.SplitJoin` | main.py:131 | `split("-")` loses nothing: joining the pieces with `-` gives back the original string |
| `Text.PadNatParse` | main.py:131 | a zero-padded date component (`"07"`, `"0099"`) is read by `int()` as its value |
| `Dates.IsValid` | main.py:135 | `date(y, m, d)` does not raise only for a day from 1 to 31, at most 29 in February, and 31 only in January, March, May, July, August, October and December |
| `Dates.LeapDayValid` | main.py:135 | 29 February of year `y` exists exactly when `y` lies in 1..9999 and is a Gregorian leap year |
| `Dates.IsAfter` | main.py:138 | a date is never later than itself |
| `Dates.IsAfterByOrdinal` | main.py:138 | on real dates the comparison `d > today` holds exactly when `d` has the larger day number (Python's `date.toordinal()`), and two dates are equal exactly when their day numbers are |
| `Dates.NextDayOrdinal` | main.py:138-139 | the day after a date has the next day number, so it is the earliest date the guard refuses |
| `Dates.ParseDate` | main.py:130-137 | a date comes back only from a string that splits on `-` into three parts which `int()` reads as its year, month and day; three readable parts that form no real date give `None` |
| `Dates.CheckBirthDate` | main.py:127-139 | the guard refuses exactly when the string splits on `-` into three parts, `int()` reads each of them, and the three numbers form a real date strictly later than today; every other string is let through |
| `Dates.GuardOnDigitStrings` | main.py:127-139 | for any three runs of digits joined by `-`, padded or not (`2030-1-1`), the guard refuses exactly when their values form a real date later than today |
| `Dates.UnitSeparatorAccepted` | main.py:131-137 | a unit separator in front of the month makes `int()` raise, so the guard lets the date through however late it is |
| `Dates.ParseIso` | main.py:130-137 | a `YYYY-MM-DD` string is read as its three numbers; it becomes a date exactly when `date(y, m, d)` would not raise |
| `Dates.GuardOnIsoStrings` | main.py:127-139 | on any `YYYY-MM-DD` string the guard refuses exactly when the numbers form a real date strictly after today; impossible dates such as 30 February pass |
| `Dates.GuardOnIsoDates` | main.py:138-139 | on a real date the guard refuses exactly when that date is later than today |
| `Dates.TodayAccepted` | main.py:138 | a birth date equal to today is accepted |
| `Dates.TomorrowRefused` | main.py:138-139 | the day after today is refused |
| `Dates.WrongShapeAccepted` | main.py:131-133 | a string that does not split into three parts is let through |
| `Mapper.BuildPatientResource` | main.py:109-124 | the built resource is typed "Patient" with one "official" name whose given list is `[given]`; its gender is the input's length with no capital letters; it has a telecom list exactly when a phone is given, and then one "phone" entry whose value `int()` reads back as the phone; it has no id, identifier or meta, and no modelled key among its untouched keys |
| `Mapper.BuildRoundTrip` | main.py:109-124 | extracting a built resource gives back given, family and birth date unchanged, the gender lowercased and the phone as `str(phone)`, with id `""`, no identifier and no lastUpdated |
| `Mapper.ExtractPatientSummary` | main.py:163-166 | a summary comes back exactly when the entry resolves to a resource whose `resourceType` is "Patient"; otherwise the result is `None`, never a partial summary; the summary's id is the resource id or `""` |
| `Mapper.UnwrapEntry` | main.py:164 | a Bundle entry holding a resource under `resource` extracts exactly as the resource itself |
| `Mapper.IdentifierFallback` | main.py:169-172 | the identifier is the first identifier entry's non-empty `value`, else its non-empty `id`, else the resource id; with no identifier entries it is the resource id |
| `Mapper.GivenOf` | main.py:177-181 | the shown given name exists exactly when the first name has a non-empty `given` list; it carries no surrounding whitespace and is the stored first given name when that had none (with `Mapper.NameSlices`, it is exactly that name's `strip()`) |
| `Mapper.FamilyOf` | main.py:182 | the shown family name is absent exactly when the stored one is missing or only whitespace; when present it is non-empty without surrounding whitespace, and a stored name without such whitespace is shown as it is (with `Mapper.NameSlices`, it is exactly the stored name's `strip()`) |
| `Mapper.NameSlices` | main.py:181-182 | the shown given and family names are slices of the stored ones with only whitespace cut off at either end, which is what `strip()` returns |
| `Mapper.Summarize` | main.py:167-196 | the summary's id is the resource id or `""`. Given and family are `GivenOf` and `FamilyOf` of the first name entry, and absent when there is none. Gender and birth date are the resource's. A shown phone is non-empty. The lastUpdated is the `meta` one whenever there is a `meta`. Without identifier entries the identifier is the resource id |
| `Mapper.SummaryPhone` | main.py:183-188 | the shown phone is the first telecom entry of system "phone" with a non-empty value, and absent exactly when no entry qualifies |
| `Mapper.FirstPhone` | main.py:183-188 | the phone is `None` exactly when no telecom entry has system "phone" and a non-empty value; otherwise it is the value of the first such entry |
| `Mapper.MergePatient` | main.py:256-275 | resourceType, id, meta, identifier and every other top-level key are unchanged. A field whose patch value is absent is unchanged. A supplied gender is stored lowercased. A supplied birth date replaces the old one. A supplied phone replaces the telecom list with one "phone" entry that reads back as the number. A supplied given or family name collapses the names to one entry: the first existing name (or an empty one) with only the supplied parts overwritten |
| `Mapper.MergeNames` | main.py:256-263 | with no given or family name supplied the names are untouched; otherwise the list becomes one entry, the first existing name (or an empty one) with only the supplied parts replaced and its `use` and other keys kept |
| `Mapper.NamesThenExtract` | main.py:256-263 | after a merge, the shown given and family names are the supplied ones, or else the ones shown before |
| `Mapper.MergeThenExtract` | main.py:253-275 | reading a Patient back after a merge gives the old summary with exactly the supplied fields replaced (gender lowercased, phone as `str(phone)`); id, identifier and lastUpdated are unchanged |
| `Mapper.MergeNamesTwice` | main.py:256-263 | two name merges in a row equal one merge in which the later supplied parts win |
| `Mapper.MergeTwice` | main.py:256-275 | merging two patches in a row is one merge of the combined patch, the later patch's supplied fields winning |
| `Mapper.MergeKeepsKeysApart` | main.py:256-275 | a stored resource whose untouched-key maps hold no modelled key keeps that property after a merge |
| `Mapper.MergeIdempotent` | main.py:256-275 | sending the same update twice changes nothing the second time |
| `Mapper.CreateIsMergeIntoBlank` | main.py:109-124 | building from create fields gives what merging the same fields into a blank Patient gives, apart from the name's `use` of "official" |
| `Query.ListParams` | main.py:205-207 | the list parameters are `_count` = 15 and `_sort` = the sort key, the latter present exactly when the key is non-empty; no other key appears |
| `Query.SearchParams` | main.py:295-303 | `_count` = 15 always. `name`, `telecom`, `_id` and `_sort` are present exactly when the matching argument is non-empty, and then they carry it. No other key appears |
| `Query.ListIsUnfilteredSearch` | main.py:295-303 | a search whose filters are all empty sends the same parameters as a list |
| `Query.PatientSummaries` | main.py:209-214 | the collected summaries are never more than the entries |
| `Query.CollectSummaries` | main.py:209-214 | the loop over the Bundle entries returns the extracted summaries of the Patient entries in entry order; a Bundle without `entry` gives none |
| `Query.PatientSummariesAppend` | main.py:211-214 | collecting over two stretches of entries concatenates their results |
| `Query.PatientSummariesMembers` | main.py:308-311 | a summary is in the result exactly when some entry extracts to it |
| `Query.AllPatientsKept` | main.py:308-311 | when every entry is a Patient, none is dropped and the i-th result is the i-th entry's summary |
| `Query.NonPatientsDropped` | main.py:308-311 | entries that are not Patients never reach the result |
| `Handlers.CreatePatient` | main.py:218-231 | create fails, with HTTP 422, exactly when the birth-date guard refuses; otherwise it sends a Patient resource without a server id |
| `Handlers.CreateReadsBack` | main.py:218-231 | the resource a create sends reads back as the payload's fields, gender lowercased, phone as text |
| `Handlers.UpdatePatient` | main.py:244-275 | update fails with 404 exactly when the fetched resource is not a Patient. It fails with 422 exactly when it is a Patient and a supplied birth date is refused. Otherwise it sends a Patient resource with the fetched id |
| `Handlers.UpdateReadsBack` | main.py:244-275 | the resource an update sends reads back as the old summary with the supplied fields replaced |
| `Handlers.ReadReply` | main.py:280-284 | the server's reply becomes the returned summary exactly when it is a Patient; otherwise the result is the endpoint's "failed to create" or "failed to update" error, HTTP 500 (main.py:237-240 for the create) |
| `Handlers.CreateAcceptsToday` | main.py:222 | a create whose birth date is today in `YYYY-MM-DD` form passes the guard |
| `Handlers.PhoneOnlyUpdate` | main.py:268-275 | an update that supplies only a phone succeeds on any Patient and changes only the shown phone |

## Left out

- The HTTP calls `fhir_get`, `fhir_post` and `fhir_put` (main.py:70-106) are left out. This covers the 30-second timeout, the base-URL fallback and the mapping of transport and status errors to HTTP 502 or the server's status. The fetched resource and the server's replies are parameters of `Handlers`.
- `validate_resource_against_fhir_schema` (main.py:142-160) is left out. It calls jsonschema against `fhir.schema.json`, which is not part of this model.
- The FastAPI and pydantic plumbing is left out: app setup, CORS, the static mount, the `root` endpoint and request parsing. The request-model constraints (whitespace stripped, at least one character, phone a strict integer) are the predicates `Fhir.ValidCreate` and `Fhir.ValidUpdate`. `phone` is an `int`.
- `date.today()` is the `today` parameter.
- The `payload.phone == ""` branch of the update (main.py:269-273) is not modelled. It cannot be reached, because `phone` is a strict integer.
- JSON `null` is not told apart from an absent key. A key holding a non-string value where a string is expected (a number as `birthDate`, say) is not modelled either. What happens to one depends on the pydantic version, which the code does not pin: building `PatientSummary` (main.py:46-54) under pydantic 1 turns a number into its text with `str(v)`, and under pydantic 2 it raises a validation error. The model follows neither.
- Keys inside `meta`, identifier entries and telecom entries other than the modelled ones are not represented. The mapping never reads or writes them one by one, and it copies those lists whole.
- The query-string order of the parameters and their URL encoding are not modelled. The parameters are a map.
- `Mapper.ExtractPatientSummary`: a resource handed over directly (`Bare`) whose untouched keys include `resource` is read as itself, whereas main.py:164 would read the value under that key instead. No FHIR Patient has a `resource` element, `Fhir.KeysApart` rules such a key out, and reading an arbitrary JSON value as a resource is not modelled. The same holds for the server replies that `Handlers.ReadReply` reads.
- `Fhir.IsFieldText`: the `strip_whitespace` of the request fields (main.py:31-42) is taken to strip Python's `str.strip()` whitespace set, as pydantic 1 does. pydantic 2 trims Unicode White_Space instead and keeps the ASCII separators FS..US. The code does not pin a pydantic version.
- `Text.Lower`: only A–Z are lowered, where Python's `str.lower()` also lowers non-ASCII letters.
- `Text.ParseInt`: only ASCII digits are read, where Python's `int()` also accepts other Unicode decimal digits. Single underscores between digits are modelled, as `Text.UnderscoreIgnored` states. The limit of 4300 digits that CPython 3.11 and later put on `int()` of a string (leading zeros included) is not modelled, because it depends on the interpreter version and on `sys.set_int_max_str_digits`; a part that long is read here and refused by such an interpreter. The same limit on `str()` of an integer is not modelled either.
- `Handlers.CreateReadsBack` and `Handlers.UpdateReadsBack` state what the resource the endpoints send reads back as. Whatever the server does to that resource before replying is outside the model.

Behaviour of the code worth knowing, which the model keeps as written:

- A supplied phone replaces the whole telecom list, entries of other systems included (main.py:275).
- A missing given name, family name, gender, birth date or phone comes out as `None`, not as `""` or a default gender (main.py:175-196).
- The identifier falls back from the first identifier entry's `value` to that entry's own `id`, and only then to the resource id (main.py:169-172).
- The birth-date guard reads each part with `int()`, which skips surrounding TAB..CR, spaces and non-ASCII whitespace but not the ASCII separators FS..US that `strip()` removes (main.py:131).

=== FILE: dates.dfy ===
/** The birth-date guard: a `YYYY-MM-DD` string is refused only when it
    names a real calendar date strictly later than today. "Today" is a
    parameter rather than a clock reading. */
module Dates {
  import opened Wrappers
  import opened Text

  datatype Date = Date(year: int, month: int, day: int)

  /** Python's `datetime.MINYEAR` and `datetime.MAXYEAR`. */
  const MinYear := 1
  const MaxYear := 9999

  predicate IsLeapYear(y: int) {
    y % 4 == 0 && (y % 100 != 0 || y % 400 == 0)
  }

  function DaysInMonth(y: int, m: int): (n: int)
    requires 1 <= m <= 12
    ensures 28 <= n <= 31
  {
    if m == 2 then (if IsLeapYear(y) then 29 else 28)
    else if m == 4 || m == 6 || m == 9 || m == 11 then 30
    else 31
  }

  /** The triples for which Python's `date(year, month, day)` does not raise. */
  predicate IsValid(d: Date): (ok: bool)
    ensures ok ==> 1 <= d.day <= 31
    ensures ok && d.month == 2 ==> d.day <= 29
    ensures ok && d.day == 31 ==> d.month in {1, 3, 5, 7, 8, 10, 12}
  {
    && MinYear <= d.year <= MaxYear
    && 1 <= d.month <= 12
    && 1 <= d.day <= DaysInMonth(d.year, d.month)
  }

  /** `a > b` on Python dates: later in the calendar. */
  predicate IsAfter(a: Date, b: Date): (later: bool)
    ensures later ==> a != b
  {
    || a.year > b.year
    || (a.year == b.year && a.month > b.month)
    || (a.year == b.year && a.month == b.month && a.day > b.day)
  }

  /** The date the guard reads out of `s`: the string split on `-` into
      exactly three parts, each read by `int()`, forming a valid date.
      Every other string yields `None` (Python swallows the exception). */
  function ParseDate(s: string): (r: Option<Date>)
    ensures r.Some? ==> IsValid(r.value)
    ensures r.Some? ==>
      && |Split(s, '-')| == 3
      && ParseInt(Split(s, '-')[0]) == Some(r.value.year)
      && ParseInt(Split(s, '-')[1]) == Some(r.value.month)
      && ParseInt(Split(s, '-')[2]) == Some(r.value.day)
    ensures (&& r.None?
             && |Split(s, '-')| == 3
             && ParseInt(Split(s, '-')[0]).Some?
             && ParseInt(Split(s, '-')[1]).Some?
             && ParseInt(Split(s, '-')[2]).Some?) ==>
      !IsValid(Date(ParseInt(Split(s, '-')[0]).value, ParseInt(Split(s, '-')[1]).value, ParseInt(Split(s, '-')[2]).value))
  {
    var parts := Split(s, '-');
    if |parts| != 3 then None
    else
      var y, m, d := ParseInt(parts[0]), ParseInt(parts[1]), ParseInt(parts[2]);
      if y.Some? && m.Some? && d.Some? && IsValid(Date(y.value, m.value, d.value)) then
        Some(Date(y.value, m.value, d.value))
      else
        None
  }

  datatype Verdict = Accepted | InFuture

  /** `validate_birthdate_not_future`: `InFuture` stands for the HTTP 422
      it raises; anything it cannot read is let through. */
  function CheckBirthDate(birthDate: string, today: Date): (v: Verdict)
    ensures v == InFuture <==>
      var parts := Split(birthDate, '-');
      && |parts| == 3
      && ParseInt(parts[0]).Some? && ParseInt(parts[1]).Some? && ParseInt(parts[2]).Some?
      && var d := Date(ParseInt(parts[0]).value, ParseInt(parts[1]).value, ParseInt(parts[2]).value);
      && IsValid(d) && IsAfter(d, today)
  {
    match ParseDate(birthDate)
    case Some(d) => if IsAfter(d, today) then InFuture else Accepted
    case None => Accepted
  }

  /** The ISO 8601 layout `YYYY-MM-DD`, in which a browser date field sends
      a date, filled with any three numbers. */
  function IsoString(y: nat, m: nat, d: nat): string {
    PadNat(y, 4) + "-" + PadNat(m, 2) + "-" + PadNat(d, 2)
  }

  /** A calendar date in ISO 8601 form. */
  function FormatDate(d: Date): string
    requires IsValid(d)
  {
    IsoString(d.year, d.month, d.day)
  }

  /** The calendar day after `d`. */
  function NextDay(d: Date): (r: Date)
    requires IsValid(d) && d != Date(MaxYear, 12, 31)
    ensures IsValid(r) && IsAfter(r, d)
    ensures forall x :: IsValid(x) && IsAfter(x, d) ==> !IsAfter(r, x)
  {
    if d.day < DaysInMonth(d.year, d.month) then Date(d.year, d.month, d.day + 1)
    else if d.month < 12 then Date(d.year, d.month + 1, 1)
    else Date(d.year + 1, 1, 1)
  }

  function DaysInYear(y: int): int {
    if IsLeapYear(y) then 366 else 365
  }

  /** Days in the years before `y`, as CPython's `_days_before_year`. */
  function DaysBeforeYear(y: int): int {
    var p := y - 1;
    p * 365 + p / 4 - p / 100 + p / 400
  }

  /** Days in the months of `y` before `m`, as CPython's `_days_before_month`. */
  function DaysBeforeMonth(y: int, m: int): int
    requires 1 <= m <= 12
  {
    var before := [0, 31, 59, 90, 120, 151, 181, 212, 243, 273, 304, 334][m - 1];
    if m > 2 && IsLeapYear(y) then before + 1 else before
  }

  /** Python's `date.toordinal()`: 1 for 1 January of year 1, counting
      days from there. */
  function Ordinal(d: Date): int
    requires IsValid(d)
  {
    DaysBeforeYear(d.year) + DaysBeforeMonth(d.year, d.month) + d.day
  }

  // ---------------------------------------------------------------- lemmas

  lemma YearStep(y: int)
    requires y >= 1
    ensures DaysBeforeYear(y + 1) == DaysBeforeYear(y) + DaysInYear(y)
  {
    var p := y - 1;
    assert (p + 1) / 4 == p / 4 + (if y % 4 == 0 then 1 else 0);
    assert (p + 1) / 100 == p / 100 + (if y % 100 == 0 then 1 else 0);
    assert (p + 1) / 400 == p / 400 + (if y % 400 == 0 then 1 else 0);
  }

  /** Every day of year `y1` comes before every day of a later year `y2`. */
  lemma {:induction false} YearsOrdered(y1: int, y2: int)
    requires 1 <= y1 < y2
    ensures DaysBeforeYear(y1) + DaysInYear(y1) <= DaysBeforeYear(y2)
    decreases y2 - y1
  {
    YearStep(y1);
    if y1 + 1 < y2 {
      YearsOrdered(y1 + 1, y2);
    }
  }

  /** The days of a valid date's month lie inside its year. */
  lemma DayInYear(d: Date)
    requires IsValid(d)
    ensures 1 <= DaysBeforeMonth(d.year, d.month) + d.day <= DaysInYear(d.year)
  {
  }

  /** Every day of month `m1` comes before every day of a later month `m2`. */
  lemma MonthsOrdered(y: int, m1: int, m2: int)
    requires 1 <= m1 < m2 <= 12
    ensures DaysBeforeMonth(y, m1) + DaysInMonth(y, m1) <= DaysBeforeMonth(y, m2)
  {
  }

  lemma LaterOrdinal(a: Date, b: Date)
    requires IsValid(a) && IsValid(b) && IsAfter(a, b)
    ensures Ordinal(a) > Ordinal(b)
  {
    DayInYear(a);
    DayInYear(b);
    if a.year > b.year {
      YearsOrdered(b.year, a.year);
    } else if a.month > b.month {
      MonthsOrdered(a.year, b.month, a.month);
    }
  }

  /** The comparison the guard makes is the calendar order: on real dates,
      `a > b` exactly when `a` has the larger day number. */
  lemma IsAfterByOrdinal(a: Date, b: Date)
    requires IsValid(a) && IsValid(b)
    ensures IsAfter(a, b) <==> Ordinal(a) > Ordinal(b)
    ensures a == b <==> Ordinal(a) == Ordinal(b)
  {
    if IsAfter(a, b) {
      LaterOrdinal(a, b);
    } else if IsAfter(b, a) {
      LaterOrdinal(b, a);
    }
  }

  /** `date(y, 2, 29)` exists exactly in the leap years Python accepts. */
  lemma LeapDayValid(y: int)
    ensures IsValid(Date(y, 2, 29)) <==> MinYear <= y <= MaxYear && IsLeapYear(y)
  {
  }

  /** The day after `d` has the next day number. */
  lemma NextDayOrdinal(d: Date)
    requires IsValid(d) && d != Date(MaxYear, 12, 31)
    ensures Ordinal(NextDay(d)) == Ordinal(d) + 1
  {
    if d.day == DaysInMonth(d.year, d.month) && d.month == 12 {
      YearStep(d.year);
    }
  }

  lemma AllDigitsHasNoDash(s: string)
    requires AllDigits(s)
    ensures '-' !in s
  {
  }

  /** The guard reads `YYYY-MM-DD` back as the three numbers, and keeps
      them exactly when they form a real date. */
  lemma ParseIso(y: nat, m: nat, d: nat)
    ensures ParseDate(IsoString(y, m, d)) ==
      (if IsValid(Date(y, m, d)) then Some(Date(y, m, d)) else None)
  {
    var ys, ms, ds := PadNat(y, 4), PadNat(m, 2), PadNat(d, 2);
    AllDigitsHasNoDash(ys);
    AllDigitsHasNoDash(ms);
    AllDigitsHasNoDash(ds);
    SplitThree(ys, ms, ds, '-');
    assert IsoString(y, m, d) == ys + ['-'] + ms + ['-'] + ds;
    PadNatParse(y, 4);
    PadNatParse(m, 2);
    PadNatParse(d, 2);
  }

  /** On strings of the form `YYYY-MM-DD` the guard refuses exactly the real
      dates later than today; impossible ones (`2023-02-29`, `2024-13-01`,
      `0000-01-01`) are let through. */
  lemma GuardOnIsoStrings(y: nat, m: nat, d: nat, today: Date)
    ensures CheckBirthDate(IsoString(y, m, d), today) == InFuture
      <==> IsValid(Date(y, m, d)) && IsAfter(Date(y, m, d), today)
  {
    ParseIso(y, m, d);
  }

  /** The same for any three runs of digits, padded or not (`2030-1-1`):
      the guard refuses exactly the real dates later than today. */
  lemma GuardOnDigitStrings(ys: string, ms: string, ds: string, today: Date)
    requires |ys| >= 1 && |ms| >= 1 && |ds| >= 1
    requires AllDigits(ys) && AllDigits(ms) && AllDigits(ds)
    ensures var d := Date(DigitsValue(ys), DigitsValue(ms), DigitsValue(ds));
      CheckBirthDate(ys + "-" + ms + "-" + ds, today) == InFuture <==> IsValid(d) && IsAfter(d, today)
  {
    AllDigitsHasNoDash(ys);
    AllDigitsHasNoDash(ms);
    AllDigitsHasNoDash(ds);
    SplitThree(ys, ms, ds, '-');
    assert ys + "-" + ms + "-" + ds == ys + ['-'] + ms + ['-'] + ds;
    DigitsParse(ys);
    DigitsParse(ms);
    DigitsParse(ds);
  }

  /** A unit separator inside a part makes `int()` raise, so the guard
      lets the date through however far in the future it lies. */
  lemma UnitSeparatorAccepted(ys: string, ms: string, ds: string, today: Date)
    requires |ys| >= 1 && |ms| >= 1 && |ds| >= 1
    requires AllDigits(ys) && AllDigits(ms) && AllDigits(ds)
    ensures CheckBirthDate(ys + "-" + ['\U{1f}'] + ms + "-" + ds, today) == Accepted
  {
    var mid := ['\U{1f}'] + ms;
    AllDigitsHasNoDash(ys);
    AllDigitsHasNoDash(ms);
    AllDigitsHasNoDash(ds);
    assert '-' !in mid by {
      assert mid[1..] == ms;
    }
    SplitThree(ys, mid, ds, '-');
    assert ys + "-" + ['\U{1f}'] + ms + "-" + ds == ys + ['-'] + mid + ['-'] + ds;
    UnitSeparatorNotInt(ms);
  }

  /** On a well-formed date the guard refuses exactly the dates later than today. */
  lemma GuardOnIsoDates(d: Date, today: Date)
    requires IsValid(d)
    ensures CheckBirthDate(FormatDate(d), today) == InFuture <==> IsAfter(d, today)
  {
    GuardOnIsoStrings(d.year, d.month, d.day, today);
  }

  /** A birth date equal to today is accepted. */
  lemma TodayAccepted(today: Date)
    requires IsValid(today)
    ensures CheckBirthDate(FormatDate(today), today) == Accepted
  {
    GuardOnIsoDates(today, today);
  }

  /** The day after today is refused. */
  lemma TomorrowRefused(today: Date)
    requires IsValid(today) && today != Date(MaxYear, 12, 31)
    ensures CheckBirthDate(FormatDate(NextDay(today)), today) == InFuture
  {
    GuardOnIsoDates(NextDay(today), today);
  }

  /** Strings that do not split into exactly three parts are let through. */
  lemma WrongShapeAccepted(s: string, today: Date)
    requires |Split(s, '-')| != 3
    ensures CheckBirthDate(s, today) == Accepted
  {
  }

}

=== FILE: fhir.dfy ===
/** The shapes exchanged by the mapping layer: the FHIR R4 Patient resource
    (section 8.1 of FHIR R4, Resource Patient) as far as the mapping reads
    or writes it, the Bundle entry that may wrap it, the flat
    `PatientSummary` returned to the UI, and the create and update payloads.

    A JSON key that is absent and one that holds `null` are both `None`.
    Keys the mapping never looks at live in `other` and travel unchanged;
    `KeysApart` states that no modelled key is also found there. */
module Fhir {
  import opened Wrappers
  import opened Text

  /** Any JSON value, for the keys the mapping never reads or writes. */
  datatype Json =
    | JNull
    | JBool(b: bool)
    | JNumber(n: int)
    | JString(s: string)
    | JArray(items: seq<Json>)
    | JObject(fields: map<string, Json>)

  datatype Meta = Meta(versionId: Option<string>, lastUpdated: Option<string>)

  datatype Identifier = Identifier(id: Option<string>, system: Option<string>, value: Option<string>)

  datatype HumanName = HumanName(
    use: Option<string>,
    family: Option<string>,
    given: Option<seq<string>>,
    other: map<string, Json>)

  datatype ContactPoint = ContactPoint(system: Option<string>, value: Option<string>)

  datatype Resource = Resource(
    resourceType: Option<string>,
    id: Option<string>,
    meta: Option<Meta>,
    identifier: Option<seq<Identifier>>,
    name: Option<seq<HumanName>>,
    gender: Option<string>,
    birthDate: Option<string>,
    telecom: Option<seq<ContactPoint>>,
    other: map<string, Json>)

  /** What the extractor is handed: a Bundle entry, whose `resource` key
      (possibly null) holds the resource, or a resource given directly. */
  datatype Entry = Wrapped(resource: Option<Resource>) | Bare(bare: Resource)

  /** A search-set Bundle; only its `entry` list is read. */
  datatype Bundle = Bundle(entry: Option<seq<Entry>>)

  /** The flat record shown by the UI. */
  datatype PatientSummary = PatientSummary(
    id: string,
    identifier: Option<string>,
    given: Option<string>,
    family: Option<string>,
    gender: Option<string>,
    birthDate: Option<string>,
    phone: Option<string>,
    lastUpdated: Option<string>)

  /** The body of a create request: every field required, `phone` an integer. */
  datatype PatientCreate = PatientCreate(
    given: string,
    family: string,
    gender: string,
    birthDate: string,
    phone: int)

  /** The body of an update request: `None` means "leave as it is". */
  datatype PatientUpdate = PatientUpdate(
    given: Option<string>,
    family: Option<string>,
    gender: Option<string>,
    birthDate: Option<string>,
    phone: Option<int>)

  /** The keys of a Patient resource the model gives a field of its own,
      and `resource`, which a FHIR Patient never carries. */
  const ResourceKeys: set<string> :=
    {"resourceType", "id", "meta", "identifier", "name", "gender", "birthDate", "telecom", "resource"}

  /** The keys of a HumanName the model gives a field of its own. */
  const NameKeys: set<string> := {"use", "family", "given"}

  /** A name whose `other` map holds none of the modelled keys. */
  predicate NameKeysApart(n: HumanName) {
    forall k | k in n.other :: k !in NameKeys
  }

  /** The typed view is faithful to the JSON object: no modelled key also
      sits in an `other` map, at the top level or in any name entry. */
  predicate KeysApart(r: Resource) {
    && (forall k | k in r.other :: k !in ResourceKeys)
    && (r.name.Some? ==> forall i | 0 <= i < |r.name.value| :: NameKeysApart(r.name.value[i]))
  }

  const PatientType := "Patient"
  const PhoneSystem := "phone"
  const OfficialUse := "official"

  /** Python truthiness of an optional string: present and non-empty. */
  predicate Truthy(o: Option<string>) {
    o.Some? && o.value != ""
  }

  /** A string field as the request model admits it: surrounding whitespace
      already stripped, at least one character left. */
  predicate IsFieldText(s: string) {
    IsTrimmed(s) && |s| >= 1
  }

  predicate IsFieldTextOrAbsent(o: Option<string>) {
    o.Some? ==> IsFieldText(o.value)
  }

  predicate ValidCreate(p: PatientCreate) {
    IsFieldText(p.given) && IsFieldText(p.family) && IsFieldText(p.gender) && IsFieldText(p.birthDate)
  }

  predicate ValidUpdate(p: PatientUpdate) {
    && IsFieldTextOrAbsent(p.given)
    && IsFieldTextOrAbsent(p.family)
    && IsFieldTextOrAbsent(p.gender)
    && IsFieldTextOrAbsent(p.birthDate)
  }
}

=== FILE: handlers.dfy ===
/** The create and update endpoints with the network taken out: each is the
    pure decision it makes between receiving a validated payload and
    sending the resource to the server, plus the reading of the server's
    reply. Server replies are parameters. */
module Handlers {
  import opened Wrappers
  import opened Text
  import opened Dates
  import opened Fhir
  import opened Mapper

  /** The HTTP errors the endpoints raise themselves. */
  datatype ApiError =
    | PatientNotFound   // the fetched resource is not a Patient
    | FutureBirthDate   // the birth-date guard refused the date
    | CreateFailed      // the server's reply to a create is not a Patient
    | UpdateFailed      // the server's reply to an update is not a Patient

  function StatusCode(e: ApiError): int {
    match e
    case PatientNotFound => 404
    case FutureBirthDate => 422
    case CreateFailed => 500
    case UpdateFailed => 500
  }

  /** The summary a create should show once the server has stored the
      resource unchanged: the payload's fields, gender lowercased, phone as
      decimal text, no server id or identifier yet. */
  function CreatedSummary(p: PatientCreate): PatientSummary {
    PatientSummary(
      id := "",
      identifier := None,
      given := Some(p.given),
      family := Some(p.family),
      gender := Some(Lower(p.gender)),
      birthDate := Some(p.birthDate),
      phone := Some(IntToString(p.phone)),
      lastUpdated := None)
  }

  /** `create_patient` up to the POST: the birth-date guard, then the
      resource to send. */
  function CreatePatient(p: PatientCreate, today: Date): (r: Result<Resource, ApiError>)
    ensures r.Failure? <==> CheckBirthDate(p.birthDate, today) == InFuture
    ensures r.Failure? ==> r.error == FutureBirthDate && StatusCode(r.error) == 422
    ensures r.Success? ==> r.value.resourceType == Some(PatientType) && r.value.id.None?
  {
    if CheckBirthDate(p.birthDate, today) == InFuture then Failure(FutureBirthDate)
    else Success(BuildPatientResource(p.given, p.family, p.gender, p.birthDate, Some(p.phone)))
  }

  /** `update_patient` up to the PUT: the fetched resource must be a
      Patient, a supplied birth date must pass the guard, then the merge. */
  function UpdatePatient(existing: Resource, patch: PatientUpdate, today: Date): (r: Result<Resource, ApiError>)
    ensures r == Failure(PatientNotFound) <==> existing.resourceType != Some(PatientType)
    ensures r == Failure(FutureBirthDate) <==>
      && existing.resourceType == Some(PatientType)
      && patch.birthDate.Some?
      && CheckBirthDate(patch.birthDate.value, today) == InFuture
    ensures r.Failure? ==> r.error in {PatientNotFound, FutureBirthDate}
    ensures r.Failure? ==>
      StatusCode(r.error) == if existing.resourceType != Some(PatientType) then 404 else 422
    ensures r.Success? ==> r.value.resourceType == Some(PatientType) && r.value.id == existing.id
  {
    if existing.resourceType != Some(PatientType) then Failure(PatientNotFound)
    else if patch.birthDate.Some? && CheckBirthDate(patch.birthDate.value, today) == InFuture then
      Failure(FutureBirthDate)
    else Success(MergePatient(existing, patch))
  }

  /** The last step of both endpoints: the server's reply becomes the
      summary returned, or `failure` (HTTP 500) when it is not a Patient. */
  function ReadReply(reply: Resource, failure: ApiError): (r: Result<PatientSummary, ApiError>)
    requires failure == CreateFailed || failure == UpdateFailed
    ensures r.Failure? <==> reply.resourceType != Some(PatientType)
    ensures r.Failure? ==> r.error == failure && StatusCode(r.error) == 500
    ensures r.Success? ==> Some(r.value) == ExtractPatientSummary(Bare(reply)) && r.value.id == reply.id.GetOr("")
  {
    match ExtractPatientSummary(Bare(reply))
    case Some(s) => Success(s)
    case None => Failure(failure)
  }

  /** The resource a create sends reads back as the payload's fields. */
  lemma CreateReadsBack(p: PatientCreate, today: Date)
    requires ValidCreate(p)
    ensures var r := CreatePatient(p, today);
      r.Success? ==> ExtractPatientSummary(Bare(r.value)) == Some(CreatedSummary(p))
  {
    BuildRoundTrip(p.given, p.family, p.gender, p.birthDate, Some(p.phone));
  }

  /** The resource an update sends reads back as the old summary with the
      supplied fields replaced. */
  lemma UpdateReadsBack(existing: Resource, patch: PatientUpdate, today: Date)
    requires ValidUpdate(patch)
    ensures var r := UpdatePatient(existing, patch, today);
      r.Success? ==> ExtractPatientSummary(Bare(r.value)) == Some(ApplyToSummary(Summarize(existing), patch))
  {
    if existing.resourceType == Some(PatientType) {
      MergeThenExtract(existing, patch);
    }
  }

  /** A create whose birth date is today goes through to the server. */
  lemma CreateAcceptsToday(p: PatientCreate, today: Date)
    requires IsValid(today) && p.birthDate == FormatDate(today)
    ensures CreatePatient(p, today).Success?
  {
    TodayAccepted(today);
  }

  /** An update that changes nothing but the phone keeps every other field
      the user sees. */
  lemma PhoneOnlyUpdate(existing: Resource, phone: int, today: Date)
    requires existing.resourceType == Some(PatientType)
    ensures var r := UpdatePatient(existing, PatientUpdate(None, None, None, None, Some(phone)), today);
      && r.Success?
      && ExtractPatientSummary(Bare(r.value)) == Some(Summarize(existing).(phone := Some(IntToString(phone))))
  {
    var patch := PatientUpdate(None, None, None, None, Some(phone));
    assert ValidUpdate(patch);
    assert UpdatePatient(existing, patch, today) == Success(MergePatient(existing, patch));
    MergeThenExtract(existing, patch);
    assert ApplyToSummary(Summarize(existing), patch) == Summarize(existing).(phone := Some(IntToString(phone)));
  }
}

=== FILE: mapper.dfy ===
/** The resource mapper: building a Patient resource from create fields,
    reading a `PatientSummary` back out of a resource or Bundle entry, and
    merging an update payload into the resource fetched from the server. */
module Mapper {
  import opened Wrappers
  import opened Text
  import opened Fhir

  /** Python's `a or b` on optional strings. */
  function Or(a: Option<string>, b: Option<string>): Option<string> {
    if Truthy(a) then a else b
  }

  /** The single telecom entry written for a phone number. */
  function PhoneEntry(phone: int): ContactPoint {
    ContactPoint(Some(PhoneSystem), Some(IntToString(phone)))
  }

  /** The patient resource sent on create: one official name, the gender
      lowercased, and a telecom list only when a phone number is given. */
  function BuildPatientResource(given: string, family: string, gender: string, birthDate: string, phone: Option<int>): (r: Resource)
    ensures r.resourceType == Some(PatientType)
    ensures r.name.Some? && |r.name.value| == 1
    ensures r.name.value[0].use == Some(OfficialUse) && r.name.value[0].given == Some([given])
    ensures r.gender.Some? && |r.gender.value| == |gender|
    ensures forall i | 0 <= i < |r.gender.value| :: !IsUpper(r.gender.value[i])
    ensures r.telecom.Some? <==> phone.Some?
    ensures phone.Some? ==>
      && |r.telecom.value| == 1
      && r.telecom.value[0].system == Some(PhoneSystem)
      && r.telecom.value[0].value.Some?
      && ParseInt(r.telecom.value[0].value.value) == phone
    ensures r.id.None? && r.identifier.None? && r.meta.None?
    ensures KeysApart(r)
  {
    var name := HumanName(Some(OfficialUse), Some(family), Some([given]), map[]);
    var base := Resource(
      Some(PatientType), None, None, None, Some([name]),
      Some(Lower(gender)), Some(birthDate), None, map[]);
    match phone
    case None => base
    case Some(n) =>
      IntStringRoundTrip(n);
      base.(telecom := Some([PhoneEntry(n)]))
  }

  // ------------------------------------------------------------- extraction

  /** The resource an entry stands for: its `resource` key when it has one,
      otherwise the entry itself. */
  function Resolve(e: Entry): Option<Resource> {
    match e
    case Wrapped(r) => r
    case Bare(r) => Some(r)
  }

  /** The first identifier's `value`, else its `id`, else the resource `id`. */
  function IdentifierOf(r: Resource): Option<string> {
    var ids := r.identifier.GetOr([]);
    if |ids| > 0 then Or(Or(ids[0].value, ids[0].id), r.id) else r.id
  }

  /** The first name entry, if the resource has one. */
  function FirstName(r: Resource): Option<HumanName> {
    var names := r.name.GetOr([]);
    if |names| > 0 then Some(names[0]) else None
  }

  /** The shown given name: the first entry of `given`, stripped; `None`
      when the list is missing or empty. */
  function GivenOf(n: HumanName): (r: Option<string>)
    ensures r.Some? <==> n.given.Some? && |n.given.value| > 0
    ensures r.Some? ==> IsTrimmed(r.value)
    ensures r.Some? && IsTrimmed(n.given.value[0]) ==> r.value == n.given.value[0]
  {
    var given := n.given.GetOr([]);
    if |given| > 0 then Some(Strip(given[0])) else None
  }

  /** The shown family name: stripped, and `None` when nothing but
      whitespace (or nothing at all) is stored. */
  function FamilyOf(n: HumanName): (r: Option<string>)
    ensures r.Some? ==> IsFieldText(r.value)
    ensures r.None? <==> Strip(n.family.GetOr("")) == ""
    ensures n.family.Some? && IsFieldText(n.family.value) ==> r == n.family
  {
    var family := Strip(n.family.GetOr(""));
    if family == "" then None else Some(family)
  }

  predicate IsPhoneEntry(t: ContactPoint) {
    t.system == Some(PhoneSystem) && Truthy(t.value)
  }

  /** The value of the first telecom entry of system "phone" with a
      non-empty value. */
  function FirstPhone(ts: seq<ContactPoint>): (r: Option<string>)
    ensures r.None? <==> forall i | 0 <= i < |ts| :: !IsPhoneEntry(ts[i])
    ensures r.Some? ==> exists i | 0 <= i < |ts| ::
      && IsPhoneEntry(ts[i])
      && ts[i].value == r
      && forall j | 0 <= j < i :: !IsPhoneEntry(ts[j])
  {
    if |ts| == 0 then None
    else if IsPhoneEntry(ts[0]) then ts[0].value
    else
      var r := FirstPhone(ts[1..]);
      assert r.Some? ==> exists i | 1 <= i < |ts| ::
        && IsPhoneEntry(ts[i])
        && ts[i].value == r
        && forall j | 0 <= j < i :: !IsPhoneEntry(ts[j]) by {
        if r.Some? {
          var k :| 0 <= k < |ts| - 1 && IsPhoneEntry(ts[1..][k]) && ts[1..][k].value == r
            && forall j | 0 <= j < k :: !IsPhoneEntry(ts[1..][j]);
          assert IsPhoneEntry(ts[k + 1]) && ts[k + 1].value == r;
          forall j | 0 <= j < k + 1 ensures !IsPhoneEntry(ts[j]) {
            if j > 0 {
              assert ts[j] == ts[1..][j - 1];
            }
          }
        }
      }
      r
  }

  /** The summary of a resource already known to be a Patient. */
  function Summarize(r: Resource): (s: PatientSummary)
    ensures s.id == r.id.GetOr("")
    ensures s.given.Some? ==> IsTrimmed(s.given.value)
    ensures s.family.Some? ==> IsFieldText(s.family.value)
    ensures s.gender == r.gender && s.birthDate == r.birthDate
    ensures s.phone.Some? ==> s.phone.value != ""
    ensures s.lastUpdated.Some? ==> r.meta.Some? && r.meta.value.lastUpdated == s.lastUpdated
    ensures r.identifier.GetOr([]) == [] ==> s.identifier == r.id
    ensures r.name.GetOr([]) == [] ==> s.given.None? && s.family.None?
    ensures r.name.GetOr([]) != [] ==>
      s.given == GivenOf(r.name.value[0]) && s.family == FamilyOf(r.name.value[0])
    ensures r.meta.Some? ==> s.lastUpdated == r.meta.value.lastUpdated
  {
    var name := FirstName(r);
    PatientSummary(
      id := r.id.GetOr(""),
      identifier := IdentifierOf(r),
      given := if name.Some? then GivenOf(name.value) else None,
      family := if name.Some? then FamilyOf(name.value) else None,
      gender := r.gender,
      birthDate := r.birthDate,
      phone := FirstPhone(r.telecom.GetOr([])),
      lastUpdated := if r.meta.Some? then r.meta.value.lastUpdated else None)
  }

  /** `extract_patient_summary`: a summary exactly when the entry resolves
      to a resource whose `resourceType` is "Patient". */
  function ExtractPatientSummary(e: Entry): (s: Option<PatientSummary>)
    ensures s.Some? <==> Resolve(e).Some? && Resolve(e).value.resourceType == Some(PatientType)
    ensures s.Some? ==> s.value.id == Resolve(e).value.id.GetOr("")
  {
    match Resolve(e)
    case Some(r) => if r.resourceType == Some(PatientType) then Some(Summarize(r)) else None
    case None => None
  }

  // ------------------------------------------------------------------ merge

  const EmptyName := HumanName(None, None, None, map[])

  /** The merge step of `update_patient`: supplied fields overwrite their
      slot, everything else is carried over. */
  function MergePatient(existing: Resource, patch: PatientUpdate): (r: Resource)
    ensures r.resourceType == existing.resourceType
    ensures r.id == existing.id && r.meta == existing.meta && r.identifier == existing.identifier
    ensures r.other == existing.other
    ensures patch.given.None? && patch.family.None? ==> r.name == existing.name
    ensures patch.given.Some? || patch.family.Some? ==>
      && r.name.Some? && |r.name.value| == 1
      && (patch.given.Some? ==> r.name.value[0].given == Some([patch.given.value]))
      && (patch.family.Some? ==> r.name.value[0].family == patch.family)
      && var first := FirstName(existing).GetOr(EmptyName);
      && (patch.given.None? ==> r.name.value[0].given == first.given)
      && (patch.family.None? ==> r.name.value[0].family == first.family)
      && r.name.value[0].use == first.use
      && r.name.value[0].other == first.other
    ensures patch.gender.None? ==> r.gender == existing.gender
    ensures patch.gender.Some? ==> r.gender == Some(Lower(patch.gender.value))
    ensures patch.birthDate.None? ==> r.birthDate == existing.birthDate
    ensures patch.birthDate.Some? ==> r.birthDate == patch.birthDate
    ensures patch.phone.None? ==> r.telecom == existing.telecom
    ensures patch.phone.Some? ==>
      && r.telecom.Some? && |r.telecom.value| == 1
      && r.telecom.value[0].system == Some(PhoneSystem)
      && r.telecom.value[0].value.Some?
      && ParseInt(r.telecom.value[0].value.value) == patch.phone
  {
    var merged := existing.(
      name := MergeNames(existing.name, patch.given, patch.family),
      gender := if patch.gender.Some? then Some(Lower(patch.gender.value)) else existing.gender,
      birthDate := if patch.birthDate.Some? then patch.birthDate else existing.birthDate);
    match patch.phone
    case None => merged
    case Some(n) =>
      IntStringRoundTrip(n);
      merged.(telecom := Some([PhoneEntry(n)]))
  }

  /** The name list after an update: untouched unless a given or family
      name is supplied; then a single entry, the first existing one (or an
      empty one) with the supplied parts overwritten. */
  function MergeNames(names: Option<seq<HumanName>>, given: Option<string>, family: Option<string>): (r: Option<seq<HumanName>>)
    ensures given.None? && family.None? ==> r == names
    ensures given.Some? || family.Some? ==>
      && r.Some? && |r.value| == 1
      && var first := if names.Some? && |names.value| > 0 then names.value[0] else EmptyName;
      && r.value[0].given == (if given.Some? then Some([given.value]) else first.given)
      && r.value[0].family == (if family.Some? then family else first.family)
      && r.value[0].use == first.use
      && r.value[0].other == first.other
  {
    if given.Some? || family.Some? then
      var list := names.GetOr([]);
      var first := if |list| > 0 then list[0] else EmptyName;
      Some([first.(
        given := if given.Some? then Some([given.value]) else first.given,
        family := if family.Some? then family else first.family)])
    else names
  }

  /** What an update means for the summary shown to the user: supplied
      fields replace the shown value, nothing else moves. */
  function ApplyToSummary(s: PatientSummary, patch: PatientUpdate): PatientSummary {
    s.(
      given := if patch.given.Some? then patch.given else s.given,
      family := if patch.family.Some? then patch.family else s.family,
      gender := if patch.gender.Some? then Some(Lower(patch.gender.value)) else s.gender,
      birthDate := if patch.birthDate.Some? then patch.birthDate else s.birthDate,
      phone := if patch.phone.Some? then Some(IntToString(patch.phone.value)) else s.phone)
  }

  /** Applying `first` and then `second` is one merge in which `second`'s
      supplied fields win. */
  function Then(first: PatientUpdate, second: PatientUpdate): PatientUpdate {
    PatientUpdate(
      if second.given.Some? then second.given else first.given,
      if second.family.Some? then second.family else first.family,
      if second.gender.Some? then second.gender else first.gender,
      if second.birthDate.Some? then second.birthDate else first.birthDate,
      if second.phone.Some? then second.phone else first.phone)
  }

  /** A resource holding nothing but its type, the state a create starts from. */
  const BlankPatient := Resource(Some(PatientType), None, None, None, None, None, None, None, map[])

  // ----------------------------------------------------------------- lemmas

  /** An entry wrapping a resource extracts exactly as the resource does. */
  lemma UnwrapEntry(r: Resource)
    ensures ExtractPatientSummary(Wrapped(Some(r))) == ExtractPatientSummary(Bare(r))
  {
  }

  /** The identifier fallback chain. */
  lemma IdentifierFallback(r: Resource)
    requires r.resourceType == Some(PatientType)
    ensures var s := ExtractPatientSummary(Bare(r)).value;
      && (r.identifier.None? || r.identifier.value == [] ==> s.identifier == r.id)
      && (r.identifier.Some? && |r.identifier.value| > 0 ==>
            var first := r.identifier.value[0];
            && (Truthy(first.value) ==> s.identifier == first.value)
            && (!Truthy(first.value) && Truthy(first.id) ==> s.identifier == first.id)
            && (!Truthy(first.value) && !Truthy(first.id) ==> s.identifier == r.id))
  {
  }

  /** The shown phone is the first telecom entry of system "phone" with a
      non-empty value, and there is none when no entry qualifies. */
  lemma SummaryPhone(r: Resource)
    ensures Summarize(r).phone == FirstPhone(r.telecom.GetOr([]))
    ensures Summarize(r).phone.None? <==>
      forall i | 0 <= i < |r.telecom.GetOr([])| :: !IsPhoneEntry(r.telecom.GetOr([])[i])
  {
  }

  /** The shown given and family names are what `strip()` leaves of the
      stored ones: slices of them with only whitespace cut off. */
  lemma NameSlices(n: HumanName)
    ensures GivenOf(n).Some? ==> var g := n.given.value[0];
      exists i, j | 0 <= i <= j <= |g| ::
        && GivenOf(n).value == g[i..j]
        && (forall k | 0 <= k < i :: IsSpace(g[k]))
        && (forall k | j <= k < |g| :: IsSpace(g[k]))
    ensures FamilyOf(n).Some? ==> n.family.Some? && var f := n.family.value;
      exists i, j | 0 <= i <= j <= |f| ::
        && FamilyOf(n).value == f[i..j]
        && (forall k | 0 <= k < i :: IsSpace(f[k]))
        && (forall k | j <= k < |f| :: IsSpace(f[k]))
  {
    if GivenOf(n).Some? {
      StripSlice(n.given.value[0]);
    }
    if FamilyOf(n).Some? {
      StripSlice(n.family.GetOr(""));
    }
  }

  /** Building a resource and reading it back returns the fields it was
      built from, the gender lowercased and the phone number as decimal
      text; a new resource has no server id and no identifier yet. */
  lemma BuildRoundTrip(given: string, family: string, gender: string, birthDate: string, phone: Option<int>)
    requires IsFieldText(given) && IsFieldText(family)
    ensures ExtractPatientSummary(Bare(BuildPatientResource(given, family, gender, birthDate, phone)))
      == Some(PatientSummary(
        id := "",
        identifier := None,
        given := Some(given),
        family := Some(family),
        gender := Some(Lower(gender)),
        birthDate := Some(birthDate),
        phone := if phone.Some? then Some(IntToString(phone.value)) else None,
        lastUpdated := None))
  {
    var r := BuildPatientResource(given, family, gender, birthDate, phone);
    assert FirstName(r) == Some(r.name.value[0]);
    if phone.Some? {
      assert IsPhoneEntry(r.telecom.value[0]);
    }
  }

  /** The name shown after a merge: a supplied part replaces the shown
      one, the other part is read from the same first name as before. */
  lemma NamesThenExtract(existing: Resource, patch: PatientUpdate)
    requires ValidUpdate(patch)
    ensures var before := Summarize(existing);
      var after := Summarize(MergePatient(existing, patch));
      && after.given == (if patch.given.Some? then patch.given else before.given)
      && after.family == (if patch.family.Some? then patch.family else before.family)
  {
    if patch.given.Some? || patch.family.Some? {
      GivenThenExtract(existing, patch);
      FamilyThenExtract(existing, patch);
    }
  }

  lemma GivenThenExtract(existing: Resource, patch: PatientUpdate)
    requires IsFieldTextOrAbsent(patch.given)
    requires patch.given.Some? || patch.family.Some?
    ensures Summarize(MergePatient(existing, patch)).given ==
      if patch.given.Some? then patch.given else Summarize(existing).given
  {
    var r := MergePatient(existing, patch);
    var first := FirstName(existing).GetOr(EmptyName);
    var merged := r.name.value[0];
    assert Summarize(r).given == GivenOf(merged);
    if existing.name.GetOr([]) != [] {
      assert Summarize(existing).given == GivenOf(first);
    }
    if patch.given.Some? {
      assert IsTrimmed(patch.given.value);
    } else {
      assert GivenOf(merged) == GivenOf(first);
    }
  }

  lemma FamilyThenExtract(existing: Resource, patch: PatientUpdate)
    requires IsFieldTextOrAbsent(patch.family)
    requires patch.given.Some? || patch.family.Some?
    ensures Summarize(MergePatient(existing, patch)).family ==
      if patch.family.Some? then patch.family else Summarize(existing).family
  {
    var r := MergePatient(existing, patch);
    var first := FirstName(existing).GetOr(EmptyName);
    var merged := r.name.value[0];
    assert Summarize(r).family == FamilyOf(merged);
    if existing.name.GetOr([]) != [] {
      assert Summarize(existing).family == FamilyOf(first);
    }
    if patch.family.None? {
      assert FamilyOf(merged) == FamilyOf(first);
    }
  }

  /** Reading a resource back after a merge shows the old summary with
      exactly the supplied fields replaced. */
  lemma MergeThenExtract(existing: Resource, patch: PatientUpdate)
    requires existing.resourceType == Some(PatientType)
    requires ValidUpdate(patch)
    ensures ExtractPatientSummary(Bare(MergePatient(existing, patch)))
      == Some(ApplyToSummary(Summarize(existing), patch))
  {
    var r := MergePatient(existing, patch);
    NamesThenExtract(existing, patch);
    if patch.phone.Some? {
      assert IsPhoneEntry(r.telecom.value[0]);
      assert FirstPhone(r.telecom.value) == Some(IntToString(patch.phone.value));
    }
  }

  lemma MergeNamesTwice(names: Option<seq<HumanName>>, first: PatientUpdate, second: PatientUpdate)
    ensures var combined := Then(first, second);
      MergeNames(MergeNames(names, first.given, first.family), second.given, second.family)
      == MergeNames(names, combined.given, combined.family)
  {
  }

  /** Two merges in a row are one merge of the combined patch. */
  lemma MergeTwice(existing: Resource, first: PatientUpdate, second: PatientUpdate)
    ensures MergePatient(MergePatient(existing, first), second) == MergePatient(existing, Then(first, second))
  {
    MergeNamesTwice(existing.name, first, second);
  }

  /** The merge puts no modelled key into an `other` map: a faithful
      stored resource stays faithful after an update. */
  lemma MergeKeepsKeysApart(existing: Resource, patch: PatientUpdate)
    requires KeysApart(existing)
    ensures KeysApart(MergePatient(existing, patch))
  {
    var r := MergePatient(existing, patch);
    if patch.given.Some? || patch.family.Some? {
      assert existing.name.Some? && |existing.name.value| > 0 ==> NameKeysApart(existing.name.value[0]);
      assert NameKeysApart(r.name.value[0]);
    }
  }

  /** Sending the same update twice changes nothing the second time. */
  lemma MergeIdempotent(existing: Resource, patch: PatientUpdate)
    ensures MergePatient(MergePatient(existing, patch), patch) == MergePatient(existing, patch)
  {
    MergeTwice(existing, patch, patch);
    assert Then(patch, patch) == patch;
  }

  /** Creating a patient builds what merging the full set of fields into a
      blank Patient builds, apart from the `use` of "official" on the name. */
  lemma CreateIsMergeIntoBlank(p: PatientCreate)
    ensures var built := BuildPatientResource(p.given, p.family, p.gender, p.birthDate, Some(p.phone));
      MergePatient(BlankPatient, PatientUpdate(Some(p.given), Some(p.family), Some(p.gender), Some(p.birthDate), Some(p.phone)))
      == built.(name := Some([built.name.value[0].(use := None)]))
  {
  }
}

=== FILE: query.dfy ===
/** The query side of listing and searching: the search parameters sent to
    the server (section 3.1.1 of FHIR R4, Search: `_count`, `_sort`, `_id`)
    and the summaries read out of the Bundle it answers with. */
module Query {
  import opened Wrappers
  import opened Fhir
  import opened Mapper

  /** A query parameter value: the page size is an integer, the rest text. */
  datatype Param = IntParam(i: int) | StrParam(s: string)

  /** Results per page, always requested. */
  const PageSize := 15

  /** The parameters of `list_patients`: the page size, and the sort key
      when one is given. */
  function ListParams(sort: Option<string>): (q: map<string, Param>)
    ensures q.Keys == if Truthy(sort) then {"_count", "_sort"} else {"_count"}
    ensures q["_count"] == IntParam(PageSize)
    ensures Truthy(sort) ==> q["_sort"] == StrParam(sort.value)
  {
    var q := map["_count" := IntParam(PageSize)];
    if Truthy(sort) then q["_sort" := StrParam(sort.value)] else q
  }

  /** Adds `key := value` when the argument is present and non-empty. */
  function AddIfGiven(q: map<string, Param>, key: string, arg: Option<string>): (r: map<string, Param>)
    ensures r.Keys == if Truthy(arg) then q.Keys + {key} else q.Keys
    ensures Truthy(arg) ==> r[key] == StrParam(arg.value)
    ensures forall k | k in q && k != key :: r[k] == q[k]
  {
    if Truthy(arg) then q[key := StrParam(arg.value)] else q
  }

  /** The parameters of `search_patients`: the page size always, and each
      filter under its FHIR name (`name`, `telecom`, `_id`, `_sort`) exactly
      when its argument is present and non-empty. */
  function SearchParams(name: Option<string>, phone: Option<string>, identifier: Option<string>, sort: Option<string>): (q: map<string, Param>)
    ensures "_count" in q && q["_count"] == IntParam(PageSize)
    ensures "name" in q <==> Truthy(name)
    ensures "telecom" in q <==> Truthy(phone)
    ensures "_id" in q <==> Truthy(identifier)
    ensures "_sort" in q <==> Truthy(sort)
    ensures Truthy(name) ==> q["name"] == StrParam(name.value)
    ensures Truthy(phone) ==> q["telecom"] == StrParam(phone.value)
    ensures Truthy(identifier) ==> q["_id"] == StrParam(identifier.value)
    ensures Truthy(sort) ==> q["_sort"] == StrParam(sort.value)
    ensures q.Keys <= {"_count", "name", "telecom", "_id", "_sort"}
  {
    var q := map["_count" := IntParam(PageSize)];
    var q := AddIfGiven(q, "name", name);
    var q := AddIfGiven(q, "telecom", phone);
    var q := AddIfGiven(q, "_id", identifier);
    AddIfGiven(q, "_sort", sort)
  }

  /** The summaries of the entries that are Patients, in entry order. */
  function PatientSummaries(entries: seq<Entry>): (r: seq<PatientSummary>)
    ensures |r| <= |entries|
  {
    if |entries| == 0 then []
    else
      var head := match ExtractPatientSummary(entries[0]) case Some(s) => [s] case None => [];
      head + PatientSummaries(entries[1..])
  }

  /** The entries of a Bundle; a Bundle without `entry` has none. */
  function EntriesOf(bundle: Bundle): seq<Entry> {
    bundle.entry.GetOr([])
  }

  /** The loop shared by `list_patients` and `search_patients`: each entry
      is extracted in turn and kept when it is a Patient. */
  method CollectSummaries(bundle: Bundle) returns (results: seq<PatientSummary>)
    ensures results == PatientSummaries(EntriesOf(bundle))
  {
    var entries := EntriesOf(bundle);
    results := [];
    var i := 0;
    while i < |entries|
      invariant 0 <= i <= |entries|
      invariant results == PatientSummaries(entries[..i])
    {
      var summary := ExtractPatientSummary(entries[i]);
      PatientSummariesAppend(entries[..i], [entries[i]]);
      assert entries[..i + 1] == entries[..i] + [entries[i]];
      SingleEntry(entries[i]);
      if summary.Some? {
        results := results + [summary.value];
      }
      i := i + 1;
    }
    assert entries[..i] == entries;
  }

  // ----------------------------------------------------------------- lemmas

  /** An empty filter is the same as no filter: listing sends what a search
      with every filter empty sends. */
  lemma ListIsUnfilteredSearch(sort: Option<string>, name: Option<string>, phone: Option<string>, identifier: Option<string>)
    requires !Truthy(name) && !Truthy(phone) && !Truthy(identifier)
    ensures ListParams(sort) == SearchParams(name, phone, identifier, sort)
  {
  }

  lemma SingleEntry(e: Entry)
    ensures PatientSummaries([e]) == match ExtractPatientSummary(e) case Some(s) => [s] case None => []
  {
    assert [e][1..] == [];
  }

  /** Extraction of consecutive stretches of a Bundle concatenates. */
  lemma {:induction false} PatientSummariesAppend(a: seq<Entry>, b: seq<Entry>)
    ensures PatientSummaries(a + b) == PatientSummaries(a) + PatientSummaries(b)
  {
    if |a| == 0 {
      assert a + b == b;
    } else {
      assert (a + b)[0] == a[0];
      assert (a + b)[1..] == a[1..] + b;
      PatientSummariesAppend(a[1..], b);
    }
  }

  /** A summary is in the result exactly when some entry extracts to it. */
  lemma {:induction false} PatientSummariesMembers(entries: seq<Entry>, s: PatientSummary)
    ensures s in PatientSummaries(entries)
      <==> exists i | 0 <= i < |entries| :: ExtractPatientSummary(entries[i]) == Some(s)
  {
    if |entries| > 0 {
      PatientSummariesMembers(entries[1..], s);
      if exists i | 0 <= i < |entries| :: ExtractPatientSummary(entries[i]) == Some(s) {
        var i :| 0 <= i < |entries| && ExtractPatientSummary(entries[i]) == Some(s);
        if i > 0 {
          assert entries[1..][i - 1] == entries[i];
        }
      }
      forall i | 0 <= i < |entries| - 1
        ensures ExtractPatientSummary(entries[1..][i]) == ExtractPatientSummary(entries[i + 1])
      {
      }
    }
  }

  /** When every entry is a Patient nothing is dropped and the order is kept. */
  lemma {:induction false} AllPatientsKept(entries: seq<Entry>)
    requires forall i | 0 <= i < |entries| :: ExtractPatientSummary(entries[i]).Some?
    ensures |PatientSummaries(entries)| == |entries|
    ensures forall i | 0 <= i < |entries| ::
      Some(PatientSummaries(entries)[i]) == ExtractPatientSummary(entries[i])
  {
    if |entries| > 0 {
      forall i | 0 <= i < |entries| - 1 ensures ExtractPatientSummary(entries[1..][i]).Some? {
        assert entries[1..][i] == entries[i + 1];
      }
      AllPatientsKept(entries[1..]);
      var rest := PatientSummaries(entries[1..]);
      forall i | 1 <= i < |entries|
        ensures Some(PatientSummaries(entries)[i]) == ExtractPatientSummary(entries[i])
      {
        assert PatientSummaries(entries)[i] == rest[i - 1];
        assert entries[1..][i - 1] == entries[i];
      }
    }
  }

  /** Entries that are not Patients never reach the result. */
  lemma {:induction false} NonPatientsDropped(entries: seq<Entry>)
    requires forall i | 0 <= i < |entries| :: ExtractPatientSummary(entries[i]).None?
    ensures PatientSummaries(entries) == []
  {
    if |entries| > 0 {
      forall i | 0 <= i < |entries| - 1 ensures ExtractPatientSummary(entries[1..][i]).None? {
        assert entries[1..][i] == entries[i + 1];
      }
      NonPatientsDropped(entries[1..]);
    }
  }
}

=== FILE: text.dfy ===
/** The Python string primitives the mapping layer leans on: `str.strip()`,
    `str.lower()`, `str(int)`, `int(str)` and `str.split(sep)`, written out
    over `seq<char>`. */
module Text {
  import opened Wrappers

  /** Python's `str.isspace()` for one character: the ASCII controls
      TAB..CR and FS..US, the space, NEL, NBSP and the Unicode space,
      line and paragraph separators. */
  predicate IsSpace(c: char) {
    || c == ' '
    || ('\t' <= c <= '\r')
    || ('\U{1c}' <= c <= '\U{1f}')
    || c == '\U{85}'
    || c == '\U{a0}'
    || c == '\U{1680}'
    || ('\U{2000}' <= c <= '\U{200a}')
    || c == '\U{2028}'
    || c == '\U{2029}'
    || c == '\U{202f}'
    || c == '\U{205f}'
    || c == '\U{3000}'
  }

  /** The whitespace CPython's `int()` skips around a number: TAB..CR, the
      space, and the non-ASCII characters of `IsSpace`. Unlike `strip()` it
      does not skip the ASCII separators FS..US. */
  predicate IsIntSpace(c: char) {
    IsSpace(c) && !('\U{1c}' <= c <= '\U{1f}')
  }

  /** The two whitespace classes in play: what `strip()` drops and what
      `int()` skips. */
  datatype SpaceClass = StripSpace | IntSpace

  predicate IsBlank(c: char, blank: SpaceClass) {
    match blank
    case StripSpace => IsSpace(c)
    case IntSpace => IsIntSpace(c)
  }

  /** No character of the class `blank` at either end. */
  predicate IsTrimmedBy(s: string, blank: SpaceClass) {
    |s| == 0 || (!IsBlank(s[0], blank) && !IsBlank(s[|s| - 1], blank))
  }

  /** No whitespace at either end: what `strip()` leaves behind. */
  predicate IsTrimmed(s: string) {
    IsTrimmedBy(s, StripSpace)
  }

  /** The longest suffix of `s` that does not start with a `blank`. */
  function TrimStart(s: string, blank: SpaceClass): (r: string)
    ensures |r| <= |s| && r == s[|s| - |r|..]
    ensures forall k | 0 <= k < |s| - |r| :: IsBlank(s[k], blank)
    ensures |r| == 0 || !IsBlank(r[0], blank)
  {
    if |s| > 0 && IsBlank(s[0], blank) then TrimStart(s[1..], blank) else s
  }

  /** The longest prefix of `s` that does not end with a `blank`. */
  function TrimEnd(s: string, blank: SpaceClass): (r: string)
    ensures |r| <= |s| && r == s[..|r|]
    ensures forall k | |r| <= k < |s| :: IsBlank(s[k], blank)
    ensures |r| == 0 || !IsBlank(r[|r| - 1], blank)
  {
    if |s| > 0 && IsBlank(s[|s| - 1], blank) then TrimEnd(s[..|s| - 1], blank) else s
  }

  /** `s` with every `blank` dropped from both ends. */
  function StripBy(s: string, blank: SpaceClass): (r: string)
    ensures IsTrimmedBy(r, blank)
    ensures IsTrimmedBy(s, blank) ==> r == s
  {
    TrimEnd(TrimStart(s, blank), blank)
  }

  /** Python's `s.strip()`: the slice of `s` left after dropping whitespace
      from both ends. */
  function Strip(s: string): (r: string)
    ensures IsTrimmed(r)
    ensures IsTrimmed(s) ==> r == s
  {
    StripBy(s, StripSpace)
  }

  predicate IsUpper(c: char) {
    'A' <= c <= 'Z'
  }

  function LowerChar(c: char): char {
    if IsUpper(c) then (c as int + 32) as char else c
  }

  /** Python's `s.lower()`, on the ASCII letters: each capital becomes its
      small letter (32 code points on), every other character stays. */
  function Lower(s: string): (r: string)
    ensures |r| == |s|
    ensures forall i | 0 <= i < |r| :: !IsUpper(r[i])
    ensures forall i | 0 <= i < |s| && !IsUpper(s[i]) :: r[i] == s[i]
    ensures forall i | 0 <= i < |s| && IsUpper(s[i]) :: r[i] as int == s[i] as int + 32
  {
    seq(|s|, i requires 0 <= i < |s| => LowerChar(s[i]))
  }

  predicate IsDigit(c: char) {
    '0' <= c <= '9'
  }

  predicate AllDigits(s: string) {
    forall i | 0 <= i < |s| :: IsDigit(s[i])
  }

  function DigitValue(c: char): nat
    requires IsDigit(c)
  {
    c as int - '0' as int
  }

  function DigitChar(d: nat): (c: char)
    requires d < 10
    ensures IsDigit(c) && DigitValue(c) == d
  {
    ('0' as int + d) as char
  }

  /** The number a string of decimal digits denotes, most significant first. */
  function DigitsValue(s: string): nat
    requires AllDigits(s)
  {
    if |s| == 0 then 0 else 10 * DigitsValue(s[..|s| - 1]) + DigitValue(s[|s| - 1])
  }

  /** Python's `str(n)` for `n >= 0`: decimal digits without a leading zero. */
  function NatToString(n: nat): (r: string)
    ensures |r| >= 1 && AllDigits(r)
    ensures r[0] == '0' ==> n == 0 && r == "0"
  {
    if n < 10 then [DigitChar(n)] else NatToString(n / 10) + [DigitChar(n % 10)]
  }

  /** Python's `str(n)` for any integer. */
  function IntToString(n: int): (r: string)
    ensures |r| >= 1
    ensures n >= 0 ==> AllDigits(r) && (r[0] == '0' ==> n == 0 && r == "0")
    ensures n < 0 ==> |r| >= 2 && r[0] == '-' && AllDigits(r[1..]) && r[1] != '0'
  {
    if n < 0 then "-" + NatToString(-n) else NatToString(n)
  }

  /** What Python's `int()` accepts between the optional sign and the end:
      digits, with single underscores allowed between two digits. */
  predicate IsDigitGroup(s: string) {
    && |s| > 0
    && IsDigit(s[0])
    && IsDigit(s[|s| - 1])
    && IsGroupText(s)
    && (forall i | 0 <= i < |s| - 1 :: !(s[i] == '_' && s[i + 1] == '_'))
  }

  /** Only digits and underscores. */
  predicate IsGroupText(s: string) {
    forall i | 0 <= i < |s| :: IsDigit(s[i]) || s[i] == '_'
  }

  function DropUnderscores(s: string): (r: string)
    requires IsGroupText(s)
    ensures AllDigits(r)
  {
    if |s| == 0 then ""
    else (if s[0] == '_' then "" else [s[0]]) + DropUnderscores(s[1..])
  }

  /** Python's `int(s)` on a string, base 10: `None` where Python raises
      `ValueError`. Surrounding `IsIntSpace` whitespace is ignored. */
  function ParseInt(s: string): (r: Option<int>)
    ensures r.Some? ==>
      var t := StripBy(s, IntSpace);
      && |t| >= 1
      && (IsDigit(t[0]) || t[0] == '-' || t[0] == '+')
      && IsDigit(t[|t| - 1])
      && (r.value < 0 ==> t[0] == '-')
  {
    ParseSigned(StripBy(s, IntSpace))
  }

  /** `int()` after the whitespace is gone: one optional leading `+` or
      `-`, then a digit group. */
  function ParseSigned(t: string): (r: Option<int>)
    ensures r.Some? ==>
      && |t| >= 1
      && (IsDigit(t[0]) || t[0] == '-' || t[0] == '+')
      && IsDigit(t[|t| - 1])
      && (r.value < 0 ==> t[0] == '-')
  {
    if |t| > 0 && t[0] == '-' then
      match ParseDigitGroup(t[1..])
      case Some(v) => Some(-v)
      case None => None
    else if |t| > 0 && t[0] == '+' then ParseDigitGroup(t[1..])
    else ParseDigitGroup(t)
  }

  /** The value of a digit group, underscores ignored. */
  function ParseDigitGroup(body: string): (r: Option<int>)
    ensures r.Some? <==> IsDigitGroup(body)
    ensures r.Some? ==> r.value >= 0
  {
    if IsDigitGroup(body) then Some(DigitsValue(DropUnderscores(body)) as int) else None
  }

  /** `n` written in at least `width` digits, with leading zeros, as in an
      ISO 8601 date. */
  function PadNat(n: nat, width: nat): (r: string)
    ensures |r| >= width && AllDigits(r)
  {
    var digits := NatToString(n);
    if |digits| < width then seq(width - |digits|, _ => '0') + digits else digits
  }

  /** Python's `s.split(sep)` for a one-character separator: the pieces
      between separators, empty ones included. */
  function Split(s: string, sep: char): (parts: seq<string>)
    ensures |parts| >= 1
    ensures forall i | 0 <= i < |parts| :: sep !in parts[i]
  {
    if |s| == 0 then [""]
    else
      var rest := Split(s[1..], sep);
      if s[0] == sep then [""] + rest else [[s[0]] + rest[0]] + rest[1..]
  }

  /** Python's `sep.join(parts)`. */
  function Join(parts: seq<string>, sep: char): string
    requires |parts| >= 1
  {
    if |parts| == 1 then parts[0] else parts[0] + [sep] + Join(parts[1..], sep)
  }

  // ---------------------------------------------------------------- lemmas

  /** Splitting loses nothing: joining the pieces gives the string back. */
  lemma {:induction false} SplitJoin(s: string, sep: char)
    ensures Join(Split(s, sep), sep) == s
  {
    if |s| > 0 {
      SplitJoin(s[1..], sep);
      if s[0] == sep {
        JoinAfterSeparator(s, sep);
      } else {
        JoinAfterOther(s, sep);
      }
    }
  }

  lemma JoinAfterSeparator(s: string, sep: char)
    requires |s| > 0 && s[0] == sep
    requires Join(Split(s[1..], sep), sep) == s[1..]
    ensures Join(Split(s, sep), sep) == s
  {
    var rest := Split(s[1..], sep);
    assert Split(s, sep) == [""] + rest;
    assert ([""] + rest)[1..] == rest;
    assert Join([""] + rest, sep) == "" + [sep] + Join(rest, sep);
    assert s == [sep] + s[1..];
  }

  lemma JoinAfterOther(s: string, sep: char)
    requires |s| > 0 && s[0] != sep
    requires Join(Split(s[1..], sep), sep) == s[1..]
    ensures Join(Split(s, sep), sep) == s
  {
    var rest := Split(s[1..], sep);
    var parts := [[s[0]] + rest[0]] + rest[1..];
    assert Split(s, sep) == parts;
    if |rest| == 1 {
      assert Join(parts, sep) == [s[0]] + rest[0];
      assert Join(rest, sep) == rest[0];
    } else {
      assert parts[1..] == rest[1..];
      assert Join(parts, sep) == ([s[0]] + rest[0]) + [sep] + Join(rest[1..], sep);
      assert Join(rest, sep) == rest[0] + [sep] + Join(rest[1..], sep);
      assert Join(parts, sep) == [s[0]] + Join(rest, sep);
    }
    assert s == [s[0]] + s[1..];
  }

  lemma {:induction false} SplitNoSeparator(s: string, sep: char)
    requires sep !in s
    ensures Split(s, sep) == [s]
  {
    if |s| > 0 {
      assert sep !in s[1..] by {
        forall k | 0 <= k < |s| - 1 ensures s[1..][k] != sep {
          assert s[1..][k] == s[k + 1];
        }
      }
      SplitNoSeparator(s[1..], sep);
      assert s == [s[0]] + s[1..];
    }
  }

  /** A separator-free piece followed by the separator comes off as one part. */
  lemma {:induction false} SplitPiece(a: string, sep: char, tail: string)
    requires sep !in a
    ensures Split(a + [sep] + tail, sep) == [a] + Split(tail, sep)
  {
    var s := a + [sep] + tail;
    if |a| == 0 {
      assert s[0] == sep && s[1..] == tail;
    } else {
      assert s[0] == a[0] && s[1..] == a[1..] + [sep] + tail;
      assert sep !in a[1..] by {
        forall k | 0 <= k < |a| - 1 ensures a[1..][k] != sep {
          assert a[1..][k] == a[k + 1];
        }
      }
      SplitPiece(a[1..], sep, tail);
      assert a == [a[0]] + a[1..];
    }
  }

  lemma SplitThree(a: string, b: string, c: string, sep: char)
    requires sep !in a && sep !in b && sep !in c
    ensures Split(a + [sep] + b + [sep] + c, sep) == [a, b, c]
  {
    var t := b + [sep] + c;
    assert a + [sep] + b + [sep] + c == a + [sep] + t;
    SplitPiece(a, sep, t);
    assert Split(a + [sep] + t, sep) == [a] + Split(t, sep);
    SplitPiece(b, sep, c);
    assert Split(t, sep) == [b] + Split(c, sep);
    SplitNoSeparator(c, sep);
    assert Split(t, sep) == [b, c];
    assert [a] + [b, c] == [a, b, c];
  }

  lemma {:induction false} DigitsValueOfNat(n: nat)
    ensures DigitsValue(NatToString(n)) == n
  {
    if n >= 10 {
      var s := NatToString(n);
      assert s[..|s| - 1] == NatToString(n / 10);
      DigitsValueOfNat(n / 10);
    }
  }

  lemma {:induction false} DigitsValueOfZeros(k: nat)
    ensures DigitsValue(seq(k, _ => '0')) == 0
  {
    if k > 0 {
      assert seq(k, _ => '0')[..k - 1] == seq(k - 1, _ => '0');
      DigitsValueOfZeros(k - 1);
    }
  }

  /** Leading zeros do not change the value, as `int("0042") == 42`. */
  lemma {:induction false} DigitsValueLeadingZeros(k: nat, d: string)
    requires AllDigits(d)
    ensures DigitsValue(seq(k, _ => '0') + d) == DigitsValue(d)
  {
    var z := seq(k, _ => '0');
    if |d| == 0 {
      assert z + d == z;
      DigitsValueOfZeros(k);
    } else {
      var s := z + d;
      assert s[..|s| - 1] == z + d[..|d| - 1];
      assert s[|s| - 1] == d[|d| - 1];
      DigitsValueLeadingZeros(k, d[..|d| - 1]);
    }
  }

  lemma {:induction false} DropUnderscoresOfDigits(s: string)
    requires AllDigits(s)
    ensures DropUnderscores(s) == s
  {
    if |s| > 0 {
      DropUnderscoresOfDigits(s[1..]);
      assert s == [s[0]] + s[1..];
    }
  }

  /** What `strip()` keeps is a slice of its input with only whitespace
      cut off on either side. */
  lemma StripSlice(s: string)
    ensures exists i, j | 0 <= i <= j <= |s| ::
      && Strip(s) == s[i..j]
      && (forall k | 0 <= k < i :: IsSpace(s[k]))
      && (forall k | j <= k < |s| :: IsSpace(s[k]))
  {
    var i, j := StripBySlice(s, StripSpace);
    forall k | 0 <= k < i ensures IsSpace(s[k]) {
      assert IsBlank(s[k], StripSpace);
    }
    forall k | j <= k < |s| ensures IsSpace(s[k]) {
      assert IsBlank(s[k], StripSpace);
    }
  }

  /** The slice `StripBy` keeps, and the bounds of it. */
  lemma StripBySlice(s: string, blank: SpaceClass) returns (i: nat, j: nat)
    ensures i <= j <= |s|
    ensures StripBy(s, blank) == s[i..j]
    ensures forall k | 0 <= k < i :: IsBlank(s[k], blank)
    ensures forall k | j <= k < |s| :: IsBlank(s[k], blank)
  {
    var t := TrimStart(s, blank);
    i := |s| - |t|;
    assert t == s[i..];
    j := TrimEndSlice(s, i, blank);
  }

  /** The part of `StripBySlice` after the leading blanks are gone. */
  lemma TrimEndSlice(s: string, i: nat, blank: SpaceClass) returns (j: nat)
    requires i <= |s|
    ensures i <= j <= |s|
    ensures TrimEnd(s[i..], blank) == s[i..j]
    ensures forall k | j <= k < |s| :: IsBlank(s[k], blank)
  {
    var t := s[i..];
    var r := TrimEnd(t, blank);
    j := i + |r|;
    assert r == t[..|r|];
    assert t[..|r|] == s[i..j];
    forall k | j <= k < |s| ensures IsBlank(s[k], blank) {
      assert s[k] == t[k - i];
    }
  }

  /** Lowering twice is lowering once: a stored gender is unchanged when
      the same update is applied again. */
  lemma LowerIdempotent(s: string)
    ensures Lower(Lower(s)) == Lower(s)
  {
  }

  /** `int()` skips fewer characters than `strip()`: a leading ASCII unit
      separator is whitespace to `strip()`, but `int()` refuses it. */
  lemma UnitSeparatorRefused(d: string)
    requires |d| >= 1 && AllDigits(d)
    ensures Strip(['\U{1f}'] + d) == d
    ensures ParseInt(['\U{1f}'] + d) == None
  {
    UnitSeparatorStripped(d);
    UnitSeparatorNotInt(d);
  }

  lemma UnitSeparatorStripped(d: string)
    requires |d| >= 1 && AllDigits(d)
    ensures Strip(['\U{1f}'] + d) == d
  {
    var s := ['\U{1f}'] + d;
    assert IsBlank(s[0], StripSpace) by {
      assert IsSpace('\U{1f}');
    }
    assert s[1..] == d;
    assert IsTrimmedBy(d, StripSpace) by {
      assert IsDigit(d[0]) && IsDigit(d[|d| - 1]);
    }
    assert TrimStart(d, StripSpace) == d;
    assert TrimStart(s, StripSpace) == d;
    assert TrimEnd(d, StripSpace) == d;
  }

  lemma UnitSeparatorNotInt(d: string)
    requires |d| >= 1 && AllDigits(d)
    ensures ParseInt(['\U{1f}'] + d) == None
  {
    var s := ['\U{1f}'] + d;
    assert s[0] == '\U{1f}' && s[|s| - 1] == d[|d| - 1];
    assert IsTrimmedBy(s, IntSpace) by {
      assert !IsIntSpace('\U{1f}');
      assert IsDigit(d[|d| - 1]);
    }
    assert StripBy(s, IntSpace) == s;
    assert !IsDigit(s[0]);
    assert ParseSigned(s) == ParseDigitGroup(s) == None;
  }

  lemma ParseTrimmed(s: string)
    requires IsTrimmedBy(s, IntSpace)
    ensures ParseInt(s) == ParseSigned(s)
  {
  }

  lemma DigitGroupOfDigits(s: string)
    requires |s| >= 1 && AllDigits(s)
    ensures ParseDigitGroup(s) == Some(DigitsValue(s) as int)
  {
    assert IsDigitGroup(s);
    DropUnderscoresOfDigits(s);
  }

  lemma SignedDigits(s: string)
    requires |s| >= 1 && AllDigits(s)
    ensures ParseSigned(s) == Some(DigitsValue(s) as int)
  {
    assert IsDigit(s[0]);
    DigitGroupOfDigits(s);
  }

  /** `int()` reads back any plain string of digits as its value. */
  lemma DigitsParse(s: string)
    requires |s| >= 1 && AllDigits(s)
    ensures ParseInt(s) == Some(DigitsValue(s) as int)
  {
    assert !IsIntSpace(s[0]) && !IsIntSpace(s[|s| - 1]);
    ParseTrimmed(s);
    SignedDigits(s);
  }

  /** A run of characters of the class `blank`. */
  predicate AllBlank(a: string, blank: SpaceClass) {
    forall k | 0 <= k < |a| :: IsBlank(a[k], blank)
  }

  /** A run of the whitespace `int()` skips. */
  predicate AllIntSpace(a: string) {
    AllBlank(a, IntSpace)
  }

  lemma {:induction false} TrimStartOver(a: string, m: string, blank: SpaceClass)
    requires AllBlank(a, blank) && |m| >= 1 && !IsBlank(m[0], blank)
    ensures TrimStart(a + m, blank) == m
  {
    if |a| == 0 {
      assert a + m == m;
    } else {
      assert (a + m)[0] == a[0];
      assert (a + m)[1..] == a[1..] + m;
      assert AllBlank(a[1..], blank) by {
        forall k | 0 <= k < |a| - 1 ensures IsBlank(a[1..][k], blank) {
          assert a[1..][k] == a[k + 1];
        }
      }
      TrimStartOver(a[1..], m, blank);
    }
  }

  lemma {:induction false} TrimEndOver(m: string, b: string, blank: SpaceClass)
    requires AllBlank(b, blank) && |m| >= 1 && !IsBlank(m[|m| - 1], blank)
    ensures TrimEnd(m + b, blank) == m
  {
    if |b| == 0 {
      assert m + b == m;
    } else {
      var s := m + b;
      var front := b[..|b| - 1];
      assert s[|s| - 1] == b[|b| - 1];
      assert s[..|s| - 1] == m + front;
      assert AllBlank(front, blank) by {
        forall k | 0 <= k < |front| ensures IsBlank(front[k], blank) {
          assert front[k] == b[k];
        }
      }
      TrimEndOver(m, front, blank);
    }
  }

  /** Stripping a class of whitespace removes exactly the runs of it
      around a text that neither starts nor ends with one. */
  lemma StripOver(a: string, m: string, b: string, blank: SpaceClass)
    requires AllBlank(a, blank) && AllBlank(b, blank)
    requires |m| >= 1 && !IsBlank(m[0], blank) && !IsBlank(m[|m| - 1], blank)
    ensures StripBy(a + m + b, blank) == m
  {
    assert a + m + b == a + (m + b);
    assert (m + b)[0] == m[0];
    TrimStartOver(a, m + b, blank);
    TrimEndOver(m, b, blank);
  }

  /** `int()` ignores any run of the whitespace it skips on either side. */
  lemma StripAround(a: string, m: string, b: string)
    requires AllIntSpace(a) && AllIntSpace(b)
    requires |m| >= 1 && !IsIntSpace(m[0]) && !IsIntSpace(m[|m| - 1])
    ensures ParseInt(a + m + b) == ParseSigned(m)
  {
    StripOver(a, m, b, IntSpace);
  }

  lemma SignNotSpace(c: char)
    requires IsDigit(c) || c == '+' || c == '-'
    ensures !IsIntSpace(c)
  {
  }

  lemma PlainDigitsParse(a: string, d: string, b: string)
    requires AllIntSpace(a) && AllIntSpace(b) && |d| >= 1 && AllDigits(d)
    ensures ParseInt(a + d + b) == Some(DigitsValue(d) as int)
  {
    SignNotSpace(d[0]);
    SignNotSpace(d[|d| - 1]);
    StripAround(a, d, b);
    SignedDigits(d);
  }

  lemma PlusDigitsParse(a: string, d: string, b: string)
    requires AllIntSpace(a) && AllIntSpace(b) && |d| >= 1 && AllDigits(d)
    ensures ParseInt(a + ("+" + d) + b) == Some(DigitsValue(d) as int)
  {
    var t := "+" + d;
    assert t[0] == '+' && t[|t| - 1] == d[|d| - 1] && t[1..] == d;
    SignNotSpace(t[0]);
    SignNotSpace(t[|t| - 1]);
    StripAround(a, t, b);
    DigitGroupOfDigits(d);
  }

  lemma MinusDigitsParse(a: string, d: string, b: string)
    requires AllIntSpace(a) && AllIntSpace(b) && |d| >= 1 && AllDigits(d)
    ensures ParseInt(a + ("-" + d) + b) == Some(-(DigitsValue(d) as int))
  {
    var t := "-" + d;
    assert t[0] == '-' && t[|t| - 1] == d[|d| - 1] && t[1..] == d;
    SignNotSpace(t[0]);
    SignNotSpace(t[|t| - 1]);
    StripAround(a, t, b);
    NegativeSigned(t, d);
  }

  /** What `int()` reads out of digits with an optional sign, padded with
      whitespace it skips: `int(" +42\n") == 42`, `int("\t-7") == -7`. */
  lemma SignedDigitsParse(a: string, d: string, b: string)
    requires AllIntSpace(a) && AllIntSpace(b) && |d| >= 1 && AllDigits(d)
    ensures ParseInt(a + d + b) == Some(DigitsValue(d) as int)
    ensures ParseInt(a + ("+" + d) + b) == Some(DigitsValue(d) as int)
    ensures ParseInt(a + ("-" + d) + b) == Some(-(DigitsValue(d) as int))
  {
    PlainDigitsParse(a, d, b);
    PlusDigitsParse(a, d, b);
    MinusDigitsParse(a, d, b);
  }

  lemma GroupTextAppend(x: string, y: string)
    requires IsGroupText(x) && IsGroupText(y)
    ensures IsGroupText(x + y)
  {
    var xy := x + y;
    forall i | 0 <= i < |xy| ensures IsDigit(xy[i]) || xy[i] == '_' {
      if i < |x| { assert xy[i] == x[i]; } else { assert xy[i] == y[i - |x|]; }
    }
  }

  lemma {:induction false} DropUnderscoresAppend(x: string, y: string)
    requires IsGroupText(x) && IsGroupText(y) && IsGroupText(x + y)
    ensures DropUnderscores(x + y) == DropUnderscores(x) + DropUnderscores(y)
  {
    if |x| == 0 {
      assert x + y == y;
    } else {
      var xy := x + y;
      var tail := x[1..];
      var head: string := if x[0] == '_' then "" else [x[0]];
      assert xy[0] == x[0];
      assert xy[1..] == tail + y;
      assert IsGroupText(tail) by {
        forall i | 0 <= i < |tail| ensures IsDigit(tail[i]) || tail[i] == '_' {
          assert tail[i] == x[i + 1];
        }
      }
      GroupTextAppend(tail, y);
      DropUnderscoresAppend(tail, y);
      assert DropUnderscores(xy) == head + (DropUnderscores(tail) + DropUnderscores(y));
      assert DropUnderscores(x) == head + DropUnderscores(tail);
    }
  }

  /** Two digit runs joined by one underscore form a digit group. */
  lemma UnderscoreGroup(d1: string, d2: string)
    requires |d1| >= 1 && |d2| >= 1 && AllDigits(d1) && AllDigits(d2)
    ensures IsDigitGroup(d1 + "_" + d2)
  {
    var s := d1 + "_" + d2;
    var n := |d1|;
    assert |s| == n + 1 + |d2|;
    assert forall i | 0 <= i < n :: s[i] == d1[i];
    assert s[n] == '_';
    assert forall i | n < i < |s| :: s[i] == d2[i - n - 1];
    assert IsDigit(s[0]) && IsDigit(s[|s| - 1]);
  }

  /** Dropping the underscore from such a group leaves the two runs. */
  lemma UnderscoreDropped(d1: string, d2: string)
    requires |d1| >= 1 && |d2| >= 1 && AllDigits(d1) && AllDigits(d2)
    ensures IsGroupText(d1 + "_" + d2)
    ensures DropUnderscores(d1 + "_" + d2) == d1 + d2
  {
    var u := "_";
    var x := d1 + u;
    assert d1 + "_" + d2 == x + d2;
    assert IsGroupText(u) && DropUnderscores(u) == "";
    GroupTextAppend(d1, u);
    GroupTextAppend(x, d2);
    DropUnderscoresAppend(d1, u);
    DropUnderscoresOfDigits(d1);
    assert DropUnderscores(x) == d1 + "";
    assert d1 + "" == d1;
    DropUnderscoresAppend(x, d2);
    DropUnderscoresOfDigits(d2);
  }

  /** A single underscore between two digits is ignored: `int("2_999") == 2999`. */
  lemma UnderscoreIgnored(d1: string, d2: string)
    requires |d1| >= 1 && |d2| >= 1 && AllDigits(d1) && AllDigits(d2)
    ensures ParseInt(d1 + "_" + d2) == ParseInt(d1 + d2)
  {
    var s := d1 + "_" + d2;
    UnderscoreGroup(d1, d2);
    UnderscoreDropped(d1, d2);
    SignNotSpace(s[0]);
    SignNotSpace(s[|s| - 1]);
    ParseTrimmed(s);
    assert ParseSigned(s) == ParseDigitGroup(s);
    assert AllDigits(d1 + d2) by {
      forall i | 0 <= i < |d1 + d2| ensures IsDigit((d1 + d2)[i]) {
        if i < |d1| { assert (d1 + d2)[i] == d1[i]; }
        else { assert (d1 + d2)[i] == d2[i - |d1|]; }
      }
    }
    DigitsParse(d1 + d2);
  }

  lemma NegativeSigned(t: string, d: string)
    requires |d| >= 1 && AllDigits(d) && |t| > 0 && t[0] == '-' && t[1..] == d
    ensures ParseSigned(t) == Some(-(DigitsValue(d) as int))
  {
    DigitGroupOfDigits(d);
  }

  /** `int()` reads back a minus sign followed by digits as a negative number. */
  lemma NegativeDigits(t: string, d: string)
    requires |d| >= 1 && AllDigits(d) && t == "-" + d
    ensures ParseInt(t) == Some(-(DigitsValue(d) as int))
  {
    assert t[0] == '-' && t[|t| - 1] == d[|d| - 1] && t[1..] == d;
    assert !IsIntSpace(t[0]) && !IsIntSpace(t[|t| - 1]);
    ParseTrimmed(t);
    NegativeSigned(t, d);
  }

  lemma NegativeString(n: int)
    requires n < 0
    ensures IntToString(n) == "-" + NatToString(-n)
  {
  }

  /** `int(str(n)) == n`: the phone number written into a telecom entry
      reads back as the same integer. */
  lemma IntStringRoundTrip(n: int)
    ensures ParseInt(IntToString(n)) == Some(n)
  {
    if n < 0 {
      var m: nat := -n;
      NegativeString(n);
      NegativeDigits(IntToString(n), NatToString(m));
      DigitsValueOfNat(m);
      assert ParseInt(IntToString(n)) == Some(-(m as int));
    } else {
      DigitsParse(NatToString(n));
      DigitsValueOfNat(n);
    }
  }

  /** A zero-padded date component reads back as its value. */
  lemma PadNatParse(n: nat, width: nat)
    ensures ParseInt(PadNat(n, width)) == Some(n)
  {
    var digits := NatToString(n);
    var r := PadNat(n, width);
    DigitsValueOfNat(n);
    if |digits| < width {
      DigitsValueLeadingZeros(width - |digits|, digits);
      assert DigitsValue(r) == n;
    } else {
      assert r == digits;
    }
    DigitsParse(r);
  }
}

=== FILE: wrappers.dfy ===
/** Optional values and results with an error, as used throughout the model.
    `None` stands for a JSON key that is absent (or holds null); `Result`
    stands for an operation that may end in one of the handler's errors. */
module Wrappers {

  datatype Option<+T> = None | Some(value: T) {

    /** The wrapped value, or `default` when there is none (Python's `d.get(k, default)`). */
    function GetOr(default: T): T {
      match this
      case Some(v) => v
      case None => default
    }
  }

  datatype Result<+R, +E> = Success(value: R) | Failure(error: E)
}
